=== FILE: README.md ===
# Theme-customizer preference store, modelled in Dafny

The page `script.js` drives a demo page: four colour themes on the document
body, four CSS animations on one box, two sliders (animation speed, box
size), three toggles (rounded corners, shadow, auto-animate), and a Save and
a Reset button. Its only logic with statable behaviour is its preference
store. A staged map (`window.temporaryPreferences`) and a durable map
(`localStorage`) range over six keys: `theme`, `animationSpeed`,
`elementSize`, `roundedCorners`, `showShadow`, `autoAnimate`.

- `storePreference` stages a value. It writes through to durable storage
  for every key except `theme`.
- `saveAllPreferences` commits the staged map.
- `loadPreferences` empties staging and applies each key that storage holds.
- `resetToDefaults` forgets all six keys.

The model is functional. Each operation is a pure function on an immutable
record.

- `Classes` (classes.dfy): the class-set effects of `changeTheme` and
  `playAnimation`, and the index arithmetic of the auto-animate cycle.
- `Prefs` (prefs.dfy): the staged/durable store. The write-through subset is
  explicit. `SaveAllByKey` is the per-key save loop, proved equal to
  `SaveAll`.
- `Page` (page.dfy): the whole page. It holds the store, the visible state
  (body and box classes, active theme buttons, sliders, toggles, box size)
  and the timers. The timers are the auto-animate interval with its cycle
  index, a count of orphaned intervals, and the scheduled class removals.
  `Load` is `loadPreferences`, step by step. `Reset` is `resetToDefaults` as
  far as its text runs. `Step` dispatches one user action or timer firing
  the way the event handlers do. A checkbox click flips the checkbox and then
  runs its change handler.
- `Session` (session.dfy): the session invariant. `Load` establishes it and
  every `Step` keeps it. It says:
  - stored values are of the page's own making;
  - every staged key except `theme` is already durable with the same value;
  - the auto-animate toggle is checked exactly when the cycle runs;
  - no interval is orphaned.
- `Reload` (reload.dfy): what a new page load shows. A stored setting other
  than the theme survives reopening the page. The theme survives only after
  a save. Loading right after a reset changes nothing. Loading twice shows
  the same view as loading once.

Stored values are abstract: `Value = Text(string) | Flag(bool)`. Theme tags
and slider positions are text; toggles are flags. Slider values are strings
in the page, as `input.value` is. A key counts as present in storage exactly
when the map holds it. This matches the page's `if (saved)` test, because a
JSON-encoded value is never the empty string. When a parsed value is
assigned to a checkbox or used as an `if` condition, it is read by JavaScript
truthiness (`Truthy`). When it is added to a class list it becomes its
string form (`Token`).

Two behaviours of the code are easy to miss:

- Not every key is written to storage as soon as it is staged. `theme` is
  not in the write-through list (script.js:241), so a chosen theme is lost
  on reload unless it was saved (`Reload.UnsavedThemeIsLost`).
- Changing the speed does not restart the auto-animate interval at the new
  period. The speed handler (script.js:173-182) does not touch the
  interval; the period is read only when the interval starts.

## Model

| member | source | states |
|---|---|---|
| Classes.ThemeTagsAreTheTags | script.js:32 | the four theme buttons' tags are exactly the theme classes `changeTheme` removes, and they are distinct |
| Classes.ApplyTheme | script.js:30-35 | after `changeTheme(t)` the body carries `t`, no other theme class, and every non-theme class it had before |
| Classes.ApplyThemeExclusive | script.js:32-35 | for one of the four tags, the body's theme classes are exactly `{t}` and its other classes are unchanged |
| Classes.ApplyThemeIdempotent | script.js:32-35 | changing to the theme already shown leaves the body's classes as they are |
| Classes.PlayClasses | script.js:135-143 | after `playAnimation(e, a)` exactly one animation class, `a`, is on the element, and all its other classes are unchanged |
| Classes.PlayClassesIdempotent | script.js:137-143 | replaying the animation already on the element leaves its classes as they are |
| Classes.NextIndex | script.js:116 | the cycle index stays in [0, 4): it is the successor below 3 and wraps from 3 to 0 |
| Classes.IndexAfter | script.js:109-116 | the cycle index after any number of firings from 0 stays in [0, 4), so it always names one of the four animations |
| Classes.IndexAfterIsMod | script.js:108-117 | starting at 0, the index after `n` firings is `n % 4` |
| Classes.CycleIsPeriodic | script.js:108-117 | the animation cycle repeats every four firings |
| Prefs.WriteThroughIsAllButTheme | script.js:240-243 | a key is written through exactly when it is not `theme` |
| Prefs.StorePreference | script.js:235-244 | `storePreference(k, v)` stages `v` under `k` and changes no other staged key; it makes `v` durable under `k` unless `k` is `theme`, where storage is unchanged; other durable keys are unchanged |
| Prefs.SaveAll | script.js:246-251 | saving copies every staged entry into storage and leaves unstaged durable keys untouched; with no staging object it changes nothing |
| Prefs.SaveAllByKey | script.js:248-251 | the per-key loop of the save computes the same store as `SaveAll` |
| Prefs.ClearAll | script.js:368-377 | after a reset no key is in storage and staging is empty |
| Prefs.LastWriteWins | script.js:237-238 | two stores under one key leave the same store as the second alone |
| Prefs.StoresCommute | script.js:235-244 | stores under different keys can be reordered |
| Prefs.DurableAfterStore | script.js:240-243 | after a store, storage holds the value exactly when the key is not `theme` or storage already held that value |
| Prefs.StoreThenSave | script.js:246-251 | any stored value, the theme included, is durable after a save |
| Prefs.SaveIdempotent | script.js:246-251 | saving twice leaves the same store as saving once |
| Prefs.StorePreservesSynced | script.js:235-244 | a store keeps every staged key except `theme` equal to its durable value |
| Prefs.SavePreservesSynced | script.js:246-251 | a save keeps staged keys other than `theme` equal to their durable values |
| Prefs.ClearEstablishesSynced | script.js:368-377 | after a reset, staging and storage agree |
| Prefs.SaveOnlyCommitsTheme | script.js:240-251 | while staged keys other than `theme` agree with storage, a save changes storage only under `theme` |
| Page.ChangeTheme | script.js:30-50 | the body carries the value's class token; its theme classes are exactly that token when it is one of the four tags, and none otherwise; it keeps its other classes; the value itself is staged under `theme` exactly as `storePreference` does, so no other staged key and no durable key changes; nothing else in the view or timers changes |
| Page.PlayAnimation | script.js:135-152 | exactly one animation class, `a`, is on the box; a removal of `a` is scheduled exactly when `a` is not `pulse`; the store is unchanged |
| Page.FireRemoval | script.js:148-150 | a scheduled removal takes its class off the box, even if the animation was restarted, and touches no other class, no other timer and no other part of the page |
| Page.AutoOn | script.js:106-121 | turning auto-animate on shows `bounce` and schedules its removal, starts one more interval at index 0, and stores `true`, which is written through |
| Page.AutoOff | script.js:122-131 | turning auto-animate off stops the referenced interval, removes all four animation classes and makes `false` durable |
| Page.Tick | script.js:115-118 | an interval firing advances the index as `NextIndex` and plays the animation at the new index as `playAnimation` does: only the box's animation classes change, and a removal is scheduled unless it is `pulse`; the rest of the view, the store and the number of intervals are unchanged |
| Page.LoadSettings | script.js:270-336 | the theme, slider and toggle steps of a load stage at most the stored theme, move each slider to its stored value, and leave storage, the timers and the auto-animate toggle untouched |
| Page.LoadTheme | script.js:270-284 | a stored theme is applied as a class and staged as the parsed value itself, and its button is marked active when it is one of the four tags; with no stored theme, the `theme-blue` button is marked active and nothing else changes |
| Page.LoadSpeed | script.js:286-296 | a stored speed moves the speed slider; with none, nothing changes |
| Page.LoadSize | script.js:298-310 | a stored size moves the size slider and sizes the box; with none, nothing changes |
| Page.LoadRounded | script.js:312-323 | a stored flag sets the toggle and adds `rounded` when true, without removing it when false; with none, nothing changes |
| Page.LoadShadow | script.js:325-336 | a stored flag sets the toggle and adds `shadow` when true; with none, nothing changes |
| Page.LoadAuto | script.js:338-349 | a stored flag sets the toggle; when true, the change handler starts the cycle at 0, shows `bounce` and schedules its removal, and stores `true` |
| Page.Load | script.js:266-349 | after loading, exactly the stored theme (the stored value itself) and a true auto-animate flag are staged; storage is unchanged but for that flag; the cycle runs when the flag is on; with no stored theme the `theme-blue` button is active |
| Page.Reset | script.js:367-399 | after a reset, storage holds none of the six keys, staging is empty, the body's only theme class is `theme-blue`, only its button is active, and the sliders read 1 and 150 |
| Session.LoadEstablishesInv | script.js:266-349 | loading a freshly opened page establishes the session invariant |
| Session.StepPreservesInv | script.js:14-232 | every theme click, animation click, toggle click, slider input, save, reset and timer firing keeps the session invariant |
| Session.RunPreservesInv | script.js:14-232 | any sequence of such events keeps the invariant |
| Session.SessionNeverLeaksIntervals | script.js:104-132 | after loading, whatever the user does (with Reset as far as script.js:399), at most one auto-animate interval runs, and it runs exactly while the toggle is checked |
| Session.AutoOnThenOff | script.js:104-131 | toggling auto-animate on then off leaves no interval running, no animation class on the box and `false` durable |
| Session.ThemeDurableOnlyBySaveOrReset | script.js:240-243 | no event other than Save or Reset changes what storage holds under `theme` |
| Session.SaveInSessionOnlyCommitsTheme | script.js:246-251 | within a session, pressing Save writes nothing new except the staged theme |
| Session.CycleFollowsOrder | script.js:108-118 | after auto-animate starts, the `n`-th firing holds index `n % 4` and shows `CycleOrder[n % 4]` |
| Reload.LoadShowsStored | script.js:266-349 | loading a new page shows every preference storage holds |
| Reload.StoredSurvivesReopen | script.js:240-243 | a non-theme preference survives reopening the page as soon as it is stored |
| Reload.SavedSurvivesReopen | script.js:246-251 | any preference, the theme included, survives reopening once stored and saved |
| Reload.UnsavedThemeIsLost | script.js:30-50 | a theme chosen but not saved (with none saved before) is gone after reopening: the body keeps its initial classes and the `theme-blue` button is active |
| Reload.ReopenAfterReset | script.js:367-377 | after a reset, reopening leaves the initial view as it was (plus the active `theme-blue` button), stages and stores nothing and starts no interval |
| Reload.LoadAfterReset | script.js:367-399 | loading right after a reset changes neither the view nor the store nor the timers |
| Reload.LoadKeepsOtherKeys | script.js:338-349 | loading changes storage only under `autoAnimate` and keeps whether that flag is on |
| Reload.SecondLoadTheme | script.js:270-284 | a second load applies and stages the same theme as the first |
| Reload.SecondLoadControls | script.js:286-349 | a second load sets the sliders, box size and toggles to the values the first set |
| Reload.SecondLoadSettings | script.js:270-336 | the settings steps of a second load leave the view the first load left, box classes aside |
| Reload.SecondLoadBoxClasses | script.js:312-336 | the rounded and shadow steps of a second load leave the box classes the first load left |
| Reload.LoadTwice | script.js:266-349 | loading twice shows the same view and leaves the same store as loading once; only a second interval starts when auto-animate is on |

`Page.Step`, `Page.Run` and `Session.TickTimes` are the event dispatcher
(script.js:14-28, 53-133, 161-232), its iteration over a sequence of events,
and repeated interval firings. They are stated through the lemmas above.

## Left out

- DOM queries, event-listener wiring, CSS custom properties, inline styles other than the box size, slider labels and hover transforms (script.js:68-85): these are presentation only.
- The staggered card pulses of `changeTheme`, `saveAllPreferences` and the welcome animation, and `showStatusMessage`: these are cosmetic timer effects with no state the preferences read.
- Timer timing: durations, the interval period from `getAnimationDuration` and its `parseFloat`, and the order in which scheduled removals fire. A removal may fire at any point (`RemovalFires`).
- Page.Tick: models the firing of the interval the page's handle refers to; an orphaned interval's own firings are not modelled, and `SessionNeverLeaksIntervals` shows that no interval is orphaned in a session.
- JSON encoding and decoding: stored values are abstract, and the encoding is taken as lossless.
- Storage failures, and storage content written outside the page: `Start` asks that storage holds values the page could have written.
- `classList.add` rejecting an empty or blank token: a stored theme is one of the four tags in every session.
- Page.Reset: the text of `resetToDefaults` ends at script.js:399. The model stops there and leaves the box size, the toggles and the auto-animate interval as they were.
- The page's markup (index.html is not part of this model). It is assumed to have one theme button per tag, and the auto-animate checkbox starts unchecked (`Start`).

=== FILE: classes.dfy ===
/**
 The class-token effects of the page: the theme class carried by the document
 body, the animation class carried by the animated box, and the index
 arithmetic of the automatic animation cycle.
 */
module Classes {

  /** The four colour themes offered by the theme buttons. */
  datatype Theme = Blue | Purple | Green | Orange

  /** The class token (and `data-theme` attribute) of a theme. */
  function ThemeTag(t: Theme): string
  {
    match t
    case Blue => "theme-blue"
    case Purple => "theme-purple"
    case Green => "theme-green"
    case Orange => "theme-orange"
  }

  const DefaultTheme: string := ThemeTag(Blue)

  /** Every theme class that changing the theme first removes from the body. */
  const ThemeTags: set<string> := {ThemeTag(Blue), ThemeTag(Purple), ThemeTag(Green), ThemeTag(Orange)}

  /** The four animations the box can play. */
  datatype Anim = Bounce | Rotate | Pulse | Shake

  function AnimName(a: Anim): string
  {
    match a
    case Bounce => "bounce"
    case Rotate => "rotate"
    case Pulse => "pulse"
    case Shake => "shake"
  }

  /** Every animation class that playing an animation first removes from the box. */
  const AnimNames: set<string> := {"bounce", "rotate", "pulse", "shake"}

  /** The order in which the automatic cycle plays the animations. */
  const CycleOrder: seq<Anim> := [Bounce, Rotate, Pulse, Shake]

  /** Exactly the themes' tags make up `ThemeTags`, and no two themes share one. */
  lemma ThemeTagsAreTheTags()
    ensures forall t :: ThemeTag(t) in ThemeTags
    ensures forall c :: c in ThemeTags <==> exists t :: ThemeTag(t) == c
    ensures forall t, u :: ThemeTag(t) == ThemeTag(u) ==> t == u
  {
  }

  /** The body's classes after `changeTheme(t)`: every theme class removed, then `t` added. */
  function ApplyTheme(classes: set<string>, t: string): (r: set<string>)
    ensures t in r
    ensures forall c :: c in ThemeTags && c != t ==> c !in r
    ensures forall c :: c !in ThemeTags && c != t ==> (c in r <==> c in classes)
  {
    classes - ThemeTags + {t}
  }

  /** For one of the four tags, the body ends up with that theme class and no other. */
  lemma ApplyThemeExclusive(classes: set<string>, t: string)
    requires t in ThemeTags
    ensures ApplyTheme(classes, t) * ThemeTags == {t}
    ensures ApplyTheme(classes, t) - ThemeTags == classes - ThemeTags
  {
  }

  /** Changing to the theme already shown changes nothing. */
  lemma ApplyThemeIdempotent(classes: set<string>, t: string)
    ensures ApplyTheme(ApplyTheme(classes, t), t) == ApplyTheme(classes, t)
  {
  }

  /** The box's classes after `playAnimation(box, a)`: every animation class removed, then `a` added. */
  function PlayClasses(classes: set<string>, a: Anim): (r: set<string>)
    ensures r * AnimNames == {AnimName(a)}
    ensures forall c :: c !in AnimNames ==> (c in r <==> c in classes)
  {
    var r := classes - AnimNames + {AnimName(a)};
    assert forall c :: c in r * AnimNames <==> c == AnimName(a);
    r
  }

  /** Replaying the animation already shown leaves the same classes. */
  lemma PlayClassesIdempotent(classes: set<string>, a: Anim)
    ensures PlayClasses(PlayClasses(classes, a), a) == PlayClasses(classes, a)
  {
  }

  /** Whether a removal of the class is scheduled once the animation has played: the
      infinite `pulse` animation is left on the box. */
  predicate SchedulesRemoval(a: Anim)
  {
    a != Pulse
  }

  /** Advancing the automatic cycle: `(i + 1) % 4`. */
  function NextIndex(i: nat): (j: nat)
    ensures j < |CycleOrder|
    ensures i < |CycleOrder| ==> j == if i == |CycleOrder| - 1 then 0 else i + 1
  {
    (i + 1) % |CycleOrder|
  }

  /** The cycle index after `n` firings of the interval, starting from 0. */
  function IndexAfter(n: nat): (i: nat)
    ensures i < |CycleOrder|
  {
    if n == 0 then 0 else NextIndex(IndexAfter(n - 1))
  }

  /** After `n` firings the cycle has played `CycleOrder[n % 4]`. */
  lemma {:induction false} IndexAfterIsMod(n: nat)
    ensures IndexAfter(n) == n % |CycleOrder|
  {
    if n > 0 {
      IndexAfterIsMod(n - 1);
    }
  }

  /** The cycle repeats every four firings. */
  lemma {:induction false} CycleIsPeriodic(n: nat)
    ensures IndexAfter(n + |CycleOrder|) == IndexAfter(n)
  {
    IndexAfterIsMod(n);
    IndexAfterIsMod(n + |CycleOrder|);
  }
}

=== FILE: page.dfy ===
/**
 The whole page as a state machine: the preference store, the visible state
 the preferences drive, and the timers. Each user action and each timer firing
 is one transition; `Load` runs once when the page starts.
 */
module Page {
  import opened Prefs
  import opened Classes

  /** The visible state the preferences drive. `activeButtons` holds the `data-theme`
      values of the theme buttons marked active; `boxSize` is the inline size of the
      animated box, `None` until one is set. */
  datatype View = View(
    bodyClasses: set<string>,
    activeButtons: set<string>,
    speedSlider: Value,
    sizeSlider: Value,
    boxSize: Option<Value>,
    roundedChecked: bool,
    shadowChecked: bool,
    autoChecked: bool,
    boxClasses: set<string>)

  /** `cycle` is the auto-animate interval the page's handle refers to, with the index its
      callback holds; `orphaned` counts running intervals no handle refers to any more;
      `removals` are the scheduled removals of animation classes. */
  datatype Timers = Timers(cycle: Option<nat>, orphaned: nat, removals: multiset<Anim>)

  datatype Page = Page(store: Store, view: View, timers: Timers)

  const RoundedClass: string := "rounded"
  const ShadowClass: string := "shadow"

  /** The number of auto-animate intervals still running. */
  function Running(p: Page): nat
  {
    p.timers.orphaned + if p.timers.cycle.Some? then 1 else 0
  }

  /** Truthiness of a parsed stored value. */
  function Truthy(v: Value): bool
  {
    match v
    case Flag(b) => b
    case Text(s) => s != ""
  }

  /** The class token a parsed stored value becomes when added to a class list. */
  function Token(v: Value): string
  {
    match v
    case Text(s) => s
    case Flag(b) => if b then "true" else "false"
  }

  // ==== Class-set effects ====

  /** `changeTheme(v)`: every theme class leaves the body and `v`'s class token joins it,
      and `v` itself is staged, not made durable, under the theme key. */
  function ChangeTheme(p: Page, v: Value): (r: Page)
    ensures r.view.bodyClasses * ThemeTags == {Token(v)} * ThemeTags
    ensures Token(v) in r.view.bodyClasses
    ensures r.view.bodyClasses - ThemeTags - {Token(v)} == p.view.bodyClasses - ThemeTags - {Token(v)}
    ensures r.store == StorePreference(p.store, Theme, v)
    ensures Theme in Pending(r.store) && Pending(r.store)[Theme] == v
    ensures forall k :: k != Theme ==> (k in Pending(r.store) <==> k in Pending(p.store))
    ensures forall k :: k != Theme && k in Pending(p.store) ==> Pending(r.store)[k] == Pending(p.store)[k]
    ensures r.store.staged.Some? && r.store.durable == p.store.durable
    ensures r.view.(bodyClasses := p.view.bodyClasses) == p.view && r.timers == p.timers
  {
    var t := Token(v);
    var r := p.(view := p.view.(bodyClasses := ApplyTheme(p.view.bodyClasses, t)),
                store := StorePreference(p.store, Theme, v));
    if t in ThemeTags then ApplyThemeExclusive(p.view.bodyClasses, t); r else r
  }

  /** `playAnimation(box, a)`: `a` becomes the box's only animation class, and its removal
      is scheduled unless it is the infinite pulse. */
  function PlayAnimation(p: Page, a: Anim): (r: Page)
    ensures r.view.boxClasses * AnimNames == {AnimName(a)}
    ensures r.view.boxClasses - AnimNames == p.view.boxClasses - AnimNames
    ensures SchedulesRemoval(a) ==> r.timers.removals == p.timers.removals + multiset{a}
    ensures !SchedulesRemoval(a) ==> r.timers.removals == p.timers.removals
    ensures r.store == p.store && r.view.(boxClasses := p.view.boxClasses) == p.view
    ensures r.timers.(removals := p.timers.removals) == p.timers
  {
    var classes := PlayClasses(p.view.boxClasses, a);
    var removals := if SchedulesRemoval(a) then p.timers.removals + multiset{a} else p.timers.removals;
    p.(view := p.view.(boxClasses := classes), timers := p.timers.(removals := removals))
  }

  /** A scheduled removal firing: the class goes, even if the animation was restarted since. */
  function FireRemoval(p: Page, a: Anim): (r: Page)
    ensures a in p.timers.removals ==> AnimName(a) !in r.view.boxClasses
    ensures a in p.timers.removals ==> r.timers.removals == p.timers.removals - multiset{a}
    ensures forall c :: c != AnimName(a) ==> (c in r.view.boxClasses <==> c in p.view.boxClasses)
    ensures a !in p.timers.removals ==> r == p
    ensures r.store == p.store && r.view.(boxClasses := p.view.boxClasses) == p.view
    ensures r.timers.(removals := p.timers.removals) == p.timers
  {
    if a in p.timers.removals then
      p.(view := p.view.(boxClasses := p.view.boxClasses - {AnimName(a)}),
         timers := p.timers.(removals := p.timers.removals - multiset{a}))
    else p
  }

  // ==== The auto-animate toggle ====

  /** Turning auto-animate on: play the first animation, start a new interval at index 0
      (an interval the handle referred to keeps running, unreferenced) and store the flag. */
  function AutoOn(p: Page): (r: Page)
    ensures r.timers.cycle == Some(0)
    ensures Running(r) == Running(p) + 1
    ensures r.view.boxClasses * AnimNames == {AnimName(CycleOrder[0])}
    ensures r.view.boxClasses - AnimNames == p.view.boxClasses - AnimNames
    ensures AutoAnimate in r.store.durable && r.store.durable[AutoAnimate] == Flag(true)
    ensures r.store == StorePreference(p.store, AutoAnimate, Flag(true))
    ensures r.view.(boxClasses := p.view.boxClasses) == p.view
    ensures r.timers.removals == p.timers.removals + multiset{CycleOrder[0]}
  {
    var q := PlayAnimation(p, CycleOrder[0]);
    var orphaned := p.timers.orphaned + if p.timers.cycle.Some? then 1 else 0;
    q.(timers := q.timers.(cycle := Some(0), orphaned := orphaned),
       store := StorePreference(q.store, AutoAnimate, Flag(true)))
  }

  /** Turning auto-animate off: clear the referenced interval, remove every animation
      class and store the flag, which writes it through. */
  function AutoOff(p: Page): (r: Page)
    ensures r.timers.cycle.None? && r.timers.orphaned == p.timers.orphaned
    ensures r.view.boxClasses * AnimNames == {}
    ensures r.view.boxClasses - AnimNames == p.view.boxClasses - AnimNames
    ensures AutoAnimate in r.store.durable && r.store.durable[AutoAnimate] == Flag(false)
    ensures r.store == StorePreference(p.store, AutoAnimate, Flag(false))
    ensures r.view.(boxClasses := p.view.boxClasses) == p.view
    ensures r.timers.removals == p.timers.removals
  {
    p.(view := p.view.(boxClasses := p.view.boxClasses - AnimNames),
       timers := p.timers.(cycle := None),
       store := StorePreference(p.store, AutoAnimate, Flag(false)))
  }

  /** The referenced interval firing: advance the index and play the animation it names. */
  function Tick(p: Page): (r: Page)
    ensures p.timers.cycle.None? ==> r == p
    ensures p.timers.cycle.Some? ==> r.timers.cycle == Some(NextIndex(p.timers.cycle.value))
    ensures p.timers.cycle.Some? ==>
      r.view.boxClasses * AnimNames == {AnimName(CycleOrder[NextIndex(p.timers.cycle.value)])}
    ensures p.timers.cycle.Some? ==>
      var a := CycleOrder[NextIndex(p.timers.cycle.value)];
      r.timers.removals == if SchedulesRemoval(a) then p.timers.removals + multiset{a} else p.timers.removals
    ensures r.view.boxClasses - AnimNames == p.view.boxClasses - AnimNames
    ensures r.view.(boxClasses := p.view.boxClasses) == p.view
    ensures r.store == p.store && Running(r) == Running(p) && r.timers.orphaned == p.timers.orphaned
  {
    match p.timers.cycle
    case None => p
    case Some(i) =>
      var j := NextIndex(i);
      PlayAnimation(p.(timers := p.timers.(cycle := Some(j))), CycleOrder[j])
  }

  // ==== loadPreferences ====

  /** The theme step: apply a stored theme (marking its button active when the page has
      one), or mark the default theme's button active. */
  function LoadTheme(p: Page): (r: Page)
    ensures Theme in p.store.durable ==> r.view.bodyClasses == ApplyTheme(p.view.bodyClasses, Token(p.store.durable[Theme]))
    ensures Theme in p.store.durable ==> Pending(r.store) == Pending(p.store)[Theme := p.store.durable[Theme]]
    ensures Theme in p.store.durable ==>
      var t := Token(p.store.durable[Theme]);
      r.view.activeButtons == if t in ThemeTags then p.view.activeButtons + {t} else p.view.activeButtons
    ensures Theme !in p.store.durable ==>
      r.view.activeButtons == p.view.activeButtons + {DefaultTheme}
      && r.view.bodyClasses == p.view.bodyClasses && r.store == p.store
    ensures r.store.durable == p.store.durable && r.timers == p.timers
    ensures r.view.(bodyClasses := p.view.bodyClasses, activeButtons := p.view.activeButtons) == p.view
  {
    if Theme in p.store.durable then
      var v := p.store.durable[Theme];
      var t := Token(v);
      var q := ChangeTheme(p, v);
      assert Pending(q.store) == Pending(p.store)[Theme := v];
      if t in ThemeTags then q.(view := q.view.(activeButtons := q.view.activeButtons + {t})) else q
    else
      p.(view := p.view.(activeButtons := p.view.activeButtons + {DefaultTheme}))
  }

  /** The speed step: a stored speed moves the speed slider. */
  function LoadSpeed(p: Page): (r: Page)
    ensures AnimationSpeed in p.store.durable ==> r.view.speedSlider == p.store.durable[AnimationSpeed]
    ensures AnimationSpeed !in p.store.durable ==> r == p
    ensures r.store == p.store && r.timers == p.timers
    ensures r.view.(speedSlider := p.view.speedSlider) == p.view
  {
    if AnimationSpeed in p.store.durable then
      p.(view := p.view.(speedSlider := p.store.durable[AnimationSpeed]))
    else p
  }

  /** The size step: a stored size moves the size slider and sizes the box. */
  function LoadSize(p: Page): (r: Page)
    ensures ElementSize in p.store.durable ==>
      r.view.sizeSlider == p.store.durable[ElementSize] && r.view.boxSize == Some(p.store.durable[ElementSize])
    ensures ElementSize !in p.store.durable ==> r == p
    ensures r.store == p.store && r.timers == p.timers
    ensures r.view.(sizeSlider := p.view.sizeSlider, boxSize := p.view.boxSize) == p.view
  {
    if ElementSize in p.store.durable then
      var v := p.store.durable[ElementSize];
      p.(view := p.view.(sizeSlider := v, boxSize := Some(v)))
    else p
  }

  /** The rounded-corners step: a stored flag sets the toggle and, when true, rounds the
      box; a false flag does not remove the class. */
  function LoadRounded(p: Page): (r: Page)
    ensures RoundedCorners in p.store.durable ==> r.view.roundedChecked == Truthy(p.store.durable[RoundedCorners])
    ensures RoundedCorners in p.store.durable ==>
      r.view.boxClasses == p.view.boxClasses + if Truthy(p.store.durable[RoundedCorners]) then {RoundedClass} else {}
    ensures RoundedCorners !in p.store.durable ==> r == p
    ensures r.store == p.store && r.timers == p.timers
    ensures r.view.(roundedChecked := p.view.roundedChecked, boxClasses := p.view.boxClasses) == p.view
  {
    if RoundedCorners in p.store.durable then
      var on := Truthy(p.store.durable[RoundedCorners]);
      p.(view := p.view.(roundedChecked := on,
                         boxClasses := if on then p.view.boxClasses + {RoundedClass} else p.view.boxClasses))
    else p
  }

  /** The shadow step, shaped like the rounded-corners step. */
  function LoadShadow(p: Page): (r: Page)
    ensures ShowShadow in p.store.durable ==> r.view.shadowChecked == Truthy(p.store.durable[ShowShadow])
    ensures ShowShadow in p.store.durable ==>
      r.view.boxClasses == p.view.boxClasses + if Truthy(p.store.durable[ShowShadow]) then {ShadowClass} else {}
    ensures ShowShadow !in p.store.durable ==> r == p
    ensures r.store == p.store && r.timers == p.timers
    ensures r.view.(shadowChecked := p.view.shadowChecked, boxClasses := p.view.boxClasses) == p.view
  {
    if ShowShadow in p.store.durable then
      var on := Truthy(p.store.durable[ShowShadow]);
      p.(view := p.view.(shadowChecked := on,
                         boxClasses := if on then p.view.boxClasses + {ShadowClass} else p.view.boxClasses))
    else p
  }

  /** The auto-animate step: a stored flag sets the toggle and, when true, fires the
      toggle's change handler, which starts the cycle. */
  function LoadAuto(p: Page): (r: Page)
    ensures AutoAnimate in p.store.durable ==> r.view.autoChecked == Truthy(p.store.durable[AutoAnimate])
    ensures AutoAnimate in p.store.durable && Truthy(p.store.durable[AutoAnimate]) ==>
      r.timers.cycle == Some(0) && Running(r) == Running(p) + 1
      && r.store == StorePreference(p.store, AutoAnimate, Flag(true))
      && r.view.boxClasses * AnimNames == {AnimName(CycleOrder[0])}
      && r.view.boxClasses - AnimNames == p.view.boxClasses - AnimNames
      && r.timers.removals == p.timers.removals + multiset{CycleOrder[0]}
    ensures !(AutoAnimate in p.store.durable && Truthy(p.store.durable[AutoAnimate])) ==>
      r.store == p.store && r.timers == p.timers && r.view.boxClasses == p.view.boxClasses
    ensures AutoAnimate !in p.store.durable ==> r == p
    ensures r.view.(autoChecked := p.view.autoChecked, boxClasses := p.view.boxClasses) == p.view
  {
    if AutoAnimate in p.store.durable then
      var on := Truthy(p.store.durable[AutoAnimate]);
      var q := p.(view := p.view.(autoChecked := on));
      if on then AutoOn(q) else q
    else p
  }

  /** Whether loading finds auto-animate switched on in storage. */
  predicate StartsCycle(d: map<Key, Value>)
  {
    AutoAnimate in d && Truthy(d[AutoAnimate])
  }

  /** `loadPreferences`: empty the staging object, then apply each stored key in turn.
      Afterwards only the theme (when stored) and a true auto-animate flag are staged,
      storage is unchanged but for that flag, and the cycle runs exactly when the flag is on. */
  function Load(p: Page): (r: Page)
    ensures forall k :: k in Pending(r.store) <==>
      (k == Theme && Theme in p.store.durable) || (k == AutoAnimate && StartsCycle(p.store.durable))
    ensures Theme in p.store.durable ==> Pending(r.store)[Theme] == p.store.durable[Theme]
    ensures StartsCycle(p.store.durable) ==> Pending(r.store)[AutoAnimate] == Flag(true)
    ensures r.store.durable
         == if StartsCycle(p.store.durable) then p.store.durable[AutoAnimate := Flag(true)] else p.store.durable
    ensures r.timers.cycle == if StartsCycle(p.store.durable) then Some(0) else p.timers.cycle
    ensures Running(r) == Running(p) + if StartsCycle(p.store.durable) then 1 else 0
    ensures Theme !in p.store.durable ==> DefaultTheme in r.view.activeButtons
  {
    LoadAuto(LoadSettings(p.(store := p.store.(staged := Some(map[])))))
  }

  /** The steps of `Load` before the auto-animate one: they stage at most the stored theme,
      move the sliders to their stored values, and leave storage, timers and the
      auto-animate toggle alone. */
  function LoadSettings(p: Page): (r: Page)
    ensures r.store.durable == p.store.durable && r.timers == p.timers
    ensures Pending(r.store)
         == if Theme in p.store.durable then Pending(p.store)[Theme := p.store.durable[Theme]] else Pending(p.store)
    ensures AnimationSpeed in p.store.durable ==> r.view.speedSlider == p.store.durable[AnimationSpeed]
    ensures ElementSize in p.store.durable ==>
      r.view.sizeSlider == p.store.durable[ElementSize] && r.view.boxSize == Some(p.store.durable[ElementSize])
    ensures r.view.autoChecked == p.view.autoChecked
  {
    LoadShadow(LoadRounded(LoadSize(LoadSpeed(LoadTheme(p)))))
  }

  // ==== resetToDefaults ====

  const DefaultSpeed: Value := Text("1")
  const DefaultSize: Value := Text("150")

  /** `resetToDefaults`, as far as the page's text runs: forget every stored preference,
      empty the staging object, restore the default theme and reset both sliders. */
  function Reset(p: Page): (r: Page)
    ensures r.store.staged.Some? && Pending(r.store) == map[]
    ensures forall k :: k !in r.store.durable
    ensures r.view.bodyClasses * ThemeTags == {DefaultTheme}
    ensures r.view.bodyClasses - ThemeTags == p.view.bodyClasses - ThemeTags
    ensures r.view.activeButtons == {DefaultTheme}
    ensures r.view.speedSlider == DefaultSpeed && r.view.sizeSlider == DefaultSize
    ensures r.timers == p.timers
    ensures r.view.(bodyClasses := p.view.bodyClasses, activeButtons := p.view.activeButtons,
                    speedSlider := p.view.speedSlider, sizeSlider := p.view.sizeSlider) == p.view
  {
    ApplyThemeExclusive(p.view.bodyClasses, DefaultTheme);
    p.(store := ClearAll(p.store),
       view := p.view.(bodyClasses := ApplyTheme(p.view.bodyClasses, DefaultTheme),
                       activeButtons := {DefaultTheme},
                       speedSlider := DefaultSpeed,
                       sizeSlider := DefaultSize))
  }

  // ==== User actions and timer firings ====

  datatype Event =
    | ThemeButton(theme: Theme)
    | BoxClick
    | AnimButton(anim: Anim)
    | AutoClick
    | SpeedInput(speed: string)
    | SizeInput(size: string)
    | RoundedClick
    | ShadowClick
    | SaveButton
    | ResetButton
    | IntervalFires
    | RemovalFires(removed: Anim)

  /** `c` added when `on`, removed otherwise. */
  function ToggleClass(classes: set<string>, c: string, on: bool): set<string>
  {
    if on then classes + {c} else classes - {c}
  }

  /** One transition of the page for one user action or timer firing. A click on a
      checkbox flips it and then runs its change handler. */
  function Step(p: Page, e: Event): Page
  {
    match e
    case ThemeButton(t) =>
      var q := ChangeTheme(p, Text(ThemeTag(t)));
      q.(view := q.view.(activeButtons := {ThemeTag(t)}))
    case BoxClick => PlayAnimation(p, Bounce)
    case AnimButton(a) => PlayAnimation(p, a)
    case AutoClick =>
      var on := !p.view.autoChecked;
      var q := p.(view := p.view.(autoChecked := on));
      if on then AutoOn(q) else AutoOff(q)
    case SpeedInput(x) =>
      p.(view := p.view.(speedSlider := Text(x)),
         store := StorePreference(p.store, AnimationSpeed, Text(x)))
    case SizeInput(x) =>
      p.(view := p.view.(sizeSlider := Text(x), boxSize := Some(Text(x))),
         store := StorePreference(p.store, ElementSize, Text(x)))
    case RoundedClick =>
      var on := !p.view.roundedChecked;
      p.(view := p.view.(roundedChecked := on, boxClasses := ToggleClass(p.view.boxClasses, RoundedClass, on)),
         store := StorePreference(p.store, RoundedCorners, Flag(on)))
    case ShadowClick =>
      var on := !p.view.shadowChecked;
      p.(view := p.view.(shadowChecked := on, boxClasses := ToggleClass(p.view.boxClasses, ShadowClass, on)),
         store := StorePreference(p.store, ShowShadow, Flag(on)))
    case SaveButton => p.(store := SaveAll(p.store))
    case ResetButton => Reset(p)
    case IntervalFires => Tick(p)
    case RemovalFires(a) => FireRemoval(p, a)
  }

  /** The page after a sequence of events. */
  function Run(p: Page, es: seq<Event>): Page
    decreases |es|
  {
    if es == [] then p else Run(Step(p, es[0]), es[1..])
  }

  // ==== The session invariant ====

  /** The values the page itself ever stores under each key. */
  predicate WellTyped(k: Key, v: Value)
  {
    match k
    case Theme => v.Text? && v.s in ThemeTags
    case AnimationSpeed => v.Text?
    case ElementSize => v.Text?
    case RoundedCorners => v.Flag?
    case ShowShadow => v.Flag?
    case AutoAnimate => v.Flag?
  }

  predicate WellTypedMap(m: map<Key, Value>)
  {
    forall k :: k in m ==> WellTyped(k, m[k])
  }

  /** A page as it starts: storage holds what earlier sessions stored, the staging object is
      undefined, the auto-animate toggle is off and no interval runs. */
  predicate Start(p: Page)
  {
    && p.store.staged.None?
    && WellTypedMap(p.store.durable)
    && !p.view.autoChecked
    && p.timers.cycle.None?
    && p.timers.orphaned == 0
  }

  /** What holds after loading and after every later transition: stored values are of the
      page's own making, staging agrees with storage except under the theme, the toggle
      shows whether the cycle runs, and at most that one interval runs. */
  ghost predicate Inv(p: Page)
  {
    && WellTypedMap(p.store.durable)
    && WellTypedMap(Pending(p.store))
    && Synced(p.store)
    && p.timers.orphaned == 0
    && (p.view.autoChecked <==> p.timers.cycle.Some?)
  }
}

=== FILE: prefs.dfy ===
/**
 The preference store: a staged map of pending edits (absent until first
 used) and a durable map standing for the browser's persistent storage.
 Stored values are abstract; their JSON text encoding is not modelled.
 */
module Prefs {

  datatype Option<T> = None | Some(value: T)

  /** The six preferences the page persists. */
  datatype Key = Theme | AnimationSpeed | ElementSize | RoundedCorners | ShowShadow | AutoAnimate

  /** A preference value: theme tags and slider positions are text, toggles are flags. */
  datatype Value = Text(s: string) | Flag(b: bool)

  const AllKeys: seq<Key> := [Theme, AnimationSpeed, ElementSize, RoundedCorners, ShowShadow, AutoAnimate]

  /** The keys written to durable storage as soon as they are staged. */
  const WriteThrough: set<Key> := {AutoAnimate, AnimationSpeed, ElementSize, RoundedCorners, ShowShadow}

  /** `staged` is the page's temporary preference object, `None` while it is still undefined. */
  datatype Store = Store(staged: Option<map<Key, Value>>, durable: map<Key, Value>)

  /** The staged entries, reading an undefined staging object as empty. */
  function Pending(s: Store): map<Key, Value>
  {
    if s.staged.Some? then s.staged.value else map[]
  }

  /** The position of a key in `AllKeys`. */
  function IndexOf(k: Key): (i: nat)
    ensures i < |AllKeys| && AllKeys[i] == k
  {
    match k
    case Theme => 0
    case AnimationSpeed => 1
    case ElementSize => 2
    case RoundedCorners => 3
    case ShowShadow => 4
    case AutoAnimate => 5
  }

  /** The theme is the one preference that is not written through. */
  lemma WriteThroughIsAllButTheme(k: Key)
    ensures k in WriteThrough <==> k != Theme
  {
  }

  /** `storePreference(k, v)`: stage `v` under `k`; write it through unless `k` is the theme. */
  function StorePreference(s: Store, k: Key, v: Value): (r: Store)
    ensures r.staged.Some?
    ensures k in Pending(r) && Pending(r)[k] == v
    ensures forall j :: j != k ==> (j in Pending(r) <==> j in Pending(s))
    ensures forall j :: j != k && j in Pending(s) ==> Pending(r)[j] == Pending(s)[j]
    ensures k != Theme ==> k in r.durable && r.durable[k] == v
    ensures k == Theme ==> r.durable == s.durable
    ensures forall j :: j != k ==> (j in r.durable <==> j in s.durable)
    ensures forall j :: j != k && j in s.durable ==> r.durable[j] == s.durable[j]
  {
    WriteThroughIsAllButTheme(k);
    var staged := Pending(s)[k := v];
    Store(Some(staged), if k in WriteThrough then s.durable[k := v] else s.durable)
  }

  /** `saveAllPreferences`: copy every staged entry into durable storage. */
  function SaveAll(s: Store): (r: Store)
    ensures r.staged == s.staged
    ensures s.staged.None? ==> r.durable == s.durable
    ensures forall k :: k in Pending(s) ==> k in r.durable && r.durable[k] == Pending(s)[k]
    ensures forall k :: k !in Pending(s) ==> (k in r.durable <==> k in s.durable)
    ensures forall k :: k !in Pending(s) && k in s.durable ==> r.durable[k] == s.durable[k]
  {
    if s.staged.None? then s else Store(s.staged, s.durable + s.staged.value)
  }

  /** The entries of `m` whose keys lie in `ks`. */
  function Restrict(m: map<Key, Value>, ks: set<Key>): map<Key, Value>
  {
    map k | k in m && k in ks :: m[k]
  }

  /** The save as the source performs it: one durable write per staged key. */
  method SaveAllByKey(s: Store) returns (r: Store)
    ensures r == SaveAll(s)
  {
    if s.staged.None? {
      return s;
    }
    var staged := s.staged.value;
    var d := s.durable;
    ghost var done: set<Key> := {};
    var i := 0;
    while i < |AllKeys|
      invariant 0 <= i <= |AllKeys|
      invariant forall j :: 0 <= j < i ==> AllKeys[j] in done
      invariant d == s.durable + Restrict(staged, done)
    {
      var k := AllKeys[i];
      if k in staged {
        d := d[k := staged[k]];
      }
      done := done + {k};
      assert d == s.durable + Restrict(staged, done);
      i := i + 1;
    }
    forall k ensures k in done {
      assert AllKeys[IndexOf(k)] in done;
    }
    assert Restrict(staged, done) == staged;
    r := Store(s.staged, d);
  }

  /** The durable-storage and staging effect of `resetToDefaults`. */
  function ClearAll(s: Store): (r: Store)
    ensures Pending(r) == map[] && r.staged.Some?
    ensures forall k :: k !in r.durable
  {
    var removed := {Theme, AnimationSpeed, ElementSize, RoundedCorners, ShowShadow, AutoAnimate};
    assert forall k :: k in removed by {
      forall k ensures k in removed {
        assert AllKeys[IndexOf(k)] in removed;
      }
    }
    Store(Some(map[]), s.durable - removed)
  }

  /** Every staged entry other than the theme is already durable with the same value. */
  ghost predicate Synced(s: Store)
  {
    forall k :: k in Pending(s) && k != Theme ==> k in s.durable && s.durable[k] == Pending(s)[k]
  }

  /** Storing twice under one key keeps only the second value. */
  lemma LastWriteWins(s: Store, k: Key, v1: Value, v2: Value)
    ensures StorePreference(StorePreference(s, k, v1), k, v2) == StorePreference(s, k, v2)
  {
    var once, twice := StorePreference(s, k, v2), StorePreference(StorePreference(s, k, v1), k, v2);
    assert Pending(twice) == Pending(once);
    assert twice.durable == once.durable;
  }

  /** Stores under different keys commute. */
  lemma StoresCommute(s: Store, k1: Key, v1: Value, k2: Key, v2: Value)
    requires k1 != k2
    ensures StorePreference(StorePreference(s, k1, v1), k2, v2)
         == StorePreference(StorePreference(s, k2, v2), k1, v1)
  {
    var a, b := StorePreference(StorePreference(s, k1, v1), k2, v2), StorePreference(StorePreference(s, k2, v2), k1, v1);
    assert Pending(a) == Pending(b);
    assert a.durable == b.durable;
  }

  /** A store makes its value durable exactly when the key is written through, or durable
      storage already held that very value. */
  lemma DurableAfterStore(s: Store, k: Key, v: Value)
    ensures (k in StorePreference(s, k, v).durable && StorePreference(s, k, v).durable[k] == v)
        <==> (k != Theme || (k in s.durable && s.durable[k] == v))
  {
  }

  /** Whatever was stored, a save makes it durable. */
  lemma StoreThenSave(s: Store, k: Key, v: Value)
    ensures k in SaveAll(StorePreference(s, k, v)).durable
    ensures SaveAll(StorePreference(s, k, v)).durable[k] == v
  {
  }

  /** Saving twice leaves the same store as saving once. */
  lemma SaveIdempotent(s: Store)
    ensures SaveAll(SaveAll(s)) == SaveAll(s)
  {
  }

  lemma StorePreservesSynced(s: Store, k: Key, v: Value)
    requires Synced(s)
    ensures Synced(StorePreference(s, k, v))
  {
  }

  lemma SavePreservesSynced(s: Store)
    requires Synced(s)
    ensures Synced(SaveAll(s))
  {
  }

  lemma ClearEstablishesSynced(s: Store)
    ensures Synced(ClearAll(s))
  {
  }

  /** While the store is synced, a save can change durable storage only under the theme key:
      the theme is the one preference whose durability waits for the save. */
  lemma SaveOnlyCommitsTheme(s: Store)
    requires Synced(s)
    ensures SaveAll(s).durable
         == if Theme in Pending(s) then s.durable[Theme := Pending(s)[Theme]] else s.durable
  {
  }
}

=== FILE: reload.dfy ===
/**
 What survives reopening the page: which preferences a new page load shows,
 depending on whether they were only stored or also saved, and what a reset
 leaves for the next load.
 */
module Reload {
  import opened Prefs
  import opened Classes
  import opened Page

  /** A new page over what storage holds, starting from the page's initial view. */
  function Reopen(d: map<Key, Value>, view0: View): Page
  {
    Load(Page(Store(None, d), view0, Timers(None, 0, multiset{})))
  }

  /** The page shows `v` as the setting for `k`. */
  ghost predicate Shows(p: Page, k: Key, v: Value)
  {
    match k
    case Theme => v.Text? && p.view.bodyClasses * ThemeTags == {v.s} && v.s in p.view.activeButtons
    case AnimationSpeed => p.view.speedSlider == v
    case ElementSize => p.view.sizeSlider == v && p.view.boxSize == Some(v)
    case RoundedCorners => v.Flag? && p.view.roundedChecked == v.b && (v.b ==> RoundedClass in p.view.boxClasses)
    case ShowShadow => v.Flag? && p.view.shadowChecked == v.b && (v.b ==> ShadowClass in p.view.boxClasses)
    case AutoAnimate => v.Flag? && p.view.autoChecked == v.b && (p.timers.cycle.Some? <==> v.b)
  }

  /** Loading shows every preference storage holds. */
  lemma LoadShowsStored(d: map<Key, Value>, view0: View, k: Key)
    requires WellTypedMap(d) && k in d
    ensures Shows(Reopen(d, view0), k, d[k])
  {
  }

  /** A preference other than the theme shows after reopening as soon as it is stored. */
  lemma StoredSurvivesReopen(s: Store, k: Key, v: Value, view0: View)
    requires k != Theme && WellTyped(k, v) && WellTypedMap(s.durable)
    ensures Shows(Reopen(StorePreference(s, k, v).durable, view0), k, v)
  {
  }

  /** Any preference, the theme included, shows after reopening once stored and saved. */
  lemma SavedSurvivesReopen(s: Store, k: Key, v: Value, view0: View)
    requires WellTyped(k, v) && WellTypedMap(s.durable) && WellTypedMap(Pending(s))
    ensures Shows(Reopen(SaveAll(StorePreference(s, k, v)).durable, view0), k, v)
  {
    var d := SaveAll(StorePreference(s, k, v)).durable;
    assert WellTypedMap(d);
    LoadShowsStored(d, view0, k);
  }

  /** A theme chosen but never saved is gone after reopening (when none was saved before):
      the body keeps its initial classes and the default theme's button is marked active. */
  lemma UnsavedThemeIsLost(p: Page, t: Theme, view0: View)
    requires Theme !in p.store.durable
    ensures var r := Reopen(Step(p, ThemeButton(t)).store.durable, view0);
      r.view.bodyClasses == view0.bodyClasses && DefaultTheme in r.view.activeButtons
  {
  }

  /** After a reset, reopening the page leaves its initial view as it was but for the default
      theme's button, stages nothing, stores nothing and starts no interval. */
  lemma ReopenAfterReset(p: Page, view0: View)
    ensures Reopen(Reset(p).store.durable, view0)
         == Page(Store(Some(map[]), map[]),
                 view0.(activeButtons := view0.activeButtons + {DefaultTheme}),
                 Timers(None, 0, multiset{}))
  {
  }

  /** Loading right after a reset changes nothing: neither the view, nor the store, nor the timers. */
  lemma LoadAfterReset(p: Page)
    ensures Load(Reset(p)).view == Reset(p).view
    ensures Load(Reset(p)).store == Reset(p).store
    ensures Load(Reset(p)).timers == p.timers
  {
  }

  /** Loading stores nothing new except a true auto-animate flag. */
  lemma LoadKeepsOtherKeys(p: Page)
    ensures forall k :: k != AutoAnimate ==> (k in Load(p).store.durable <==> k in p.store.durable)
    ensures forall k :: k != AutoAnimate && k in p.store.durable ==> Load(p).store.durable[k] == p.store.durable[k]
    ensures StartsCycle(Load(p).store.durable) == StartsCycle(p.store.durable)
  {
  }

  /** The theme step of a second load finds the theme the first load applied. */
  lemma SecondLoadTheme(p: Page)
    ensures var q := Load(p);
      var a2 := LoadTheme(q.(store := q.store.(staged := Some(map[]))));
      && a2.view.bodyClasses == q.view.bodyClasses
      && a2.view.activeButtons == q.view.activeButtons
      && Pending(a2.store) == Pending(LoadTheme(p.(store := p.store.(staged := Some(map[])))).store)
  {
  }

  /** The slider and toggle steps of a second load find the values the first load applied. */
  lemma SecondLoadControls(p: Page)
    ensures var q := Load(p);
      var f2 := LoadSettings(q.(store := q.store.(staged := Some(map[]))));
      && f2.view.speedSlider == q.view.speedSlider
      && f2.view.sizeSlider == q.view.sizeSlider
      && f2.view.boxSize == q.view.boxSize
      && f2.view.roundedChecked == q.view.roundedChecked
      && f2.view.shadowChecked == q.view.shadowChecked
      && f2.view.autoChecked == q.view.autoChecked
  {
  }

  /** The settings steps of a second load find the view the first load left. */
  lemma SecondLoadSettings(p: Page)
    ensures var q := Load(p);
      var f2 := LoadSettings(q.(store := q.store.(staged := Some(map[]))));
      f2.view.(boxClasses := q.view.boxClasses) == q.view
      && Pending(f2.store) == Pending(LoadSettings(p.(store := p.store.(staged := Some(map[])))).store)
  {
    SecondLoadTheme(p);
    SecondLoadControls(p);
  }

  /** The box classes after the settings steps of a second load are those the first load left. */
  lemma SecondLoadBoxClasses(p: Page)
    ensures var q := Load(p);
      LoadSettings(q.(store := q.store.(staged := Some(map[])))).view.boxClasses == q.view.boxClasses
  {
  }

  /** Loading twice shows the same view and leaves the same store as loading once; only a
      second auto-animate interval starts, orphaning the first. */
  lemma LoadTwice(p: Page)
    ensures Load(Load(p)).view == Load(p).view
    ensures Load(Load(p)).store == Load(p).store
    ensures Running(Load(Load(p))) == Running(Load(p)) + if StartsCycle(p.store.durable) then 1 else 0
  {
    var d := p.store.durable;
    var f1 := LoadSettings(p.(store := p.store.(staged := Some(map[]))));
    var q := LoadAuto(f1);
    var f2 := LoadSettings(q.(store := q.store.(staged := Some(map[]))));
    SecondLoadSettings(p);
    SecondLoadBoxClasses(p);
    assert StartsCycle(q.store.durable) == StartsCycle(d);
    if StartsCycle(d) {
      PlayClassesIdempotent(f1.view.boxClasses, CycleOrder[0]);
    }
  }
}

=== FILE: session.dfy ===
/**
 Properties of a whole page session: the invariant that loading establishes and
 every later transition keeps, what it says about the auto-animate interval,
 and which transitions can make the theme durable.
 */
module Session {
  import opened Prefs
  import opened Classes
  import opened Page

  /** Loading a page that has just started establishes the session invariant. */
  lemma LoadEstablishesInv(p: Page)
    requires Start(p)
    ensures Inv(Load(p))
  {
  }

  /** Every user action and timer firing keeps the session invariant. */
  lemma StepPreservesInv(p: Page, e: Event)
    requires Inv(p)
    ensures Inv(Step(p, e))
  {
  }

  lemma {:induction false} RunPreservesInv(p: Page, es: seq<Event>)
    requires Inv(p)
    ensures Inv(Run(p, es))
    decreases |es|
  {
    if es != [] {
      StepPreservesInv(p, es[0]);
      RunPreservesInv(Step(p, es[0]), es[1..]);
    }
  }

  /** However a session goes on after loading, at most one auto-animate interval runs, and
      it runs exactly while the toggle is checked: no interval is ever leaked. A reset
      counts as `resetToDefaults` as far as script.js:399, the end of its text. */
  lemma {:induction false} SessionNeverLeaksIntervals(p: Page, es: seq<Event>)
    requires Start(p)
    ensures Running(Run(Load(p), es)) <= 1
    ensures Run(Load(p), es).view.autoChecked <==> Running(Run(Load(p), es)) == 1
  {
    LoadEstablishesInv(p);
    RunPreservesInv(Load(p), es);
  }

  /** Turning auto-animate on and then off again leaves no interval running, no animation
      class on the box, and `false` stored durably. */
  lemma AutoOnThenOff(p: Page)
    requires Inv(p) && !p.view.autoChecked
    ensures var q := Step(Step(p, AutoClick), AutoClick);
      && Running(q) == 0
      && q.view.boxClasses * AnimNames == {}
      && q.view.boxClasses - AnimNames == p.view.boxClasses - AnimNames
      && AutoAnimate in q.store.durable && q.store.durable[AutoAnimate] == Flag(false)
  {
  }

  /** Only a save or a reset changes what storage holds under the theme key. */
  lemma ThemeDurableOnlyBySaveOrReset(p: Page, e: Event)
    requires !e.SaveButton? && !e.ResetButton?
    ensures Theme in Step(p, e).store.durable <==> Theme in p.store.durable
    ensures Theme in p.store.durable ==> Step(p, e).store.durable[Theme] == p.store.durable[Theme]
  {
  }

  /** Within a session a save writes nothing new except the staged theme: every other staged
      preference is already durable. */
  lemma SaveInSessionOnlyCommitsTheme(p: Page)
    requires Inv(p)
    ensures Step(p, SaveButton).store.durable
         == if Theme in Pending(p.store) then p.store.durable[Theme := Pending(p.store)[Theme]]
            else p.store.durable
  {
  }

  /** The page after the referenced interval fires `n` times. */
  function TickTimes(p: Page, n: nat): Page
  {
    if n == 0 then p else Step(TickTimes(p, n - 1), IntervalFires)
  }

  /** After turning auto-animate on, the `n`-th firing plays `CycleOrder[n % 4]`. */
  lemma {:induction false} CycleFollowsOrder(p: Page, n: nat)
    requires p.timers.cycle.Some? && p.timers.cycle.value == 0
    ensures TickTimes(p, n).timers.cycle == Some(n % |CycleOrder|)
    ensures n > 0 ==> TickTimes(p, n).view.boxClasses * AnimNames == {AnimName(CycleOrder[n % |CycleOrder|])}
    ensures TickTimes(p, n).store == p.store
  {
    if n > 0 {
      CycleFollowsOrder(p, n - 1);
      assert TickTimes(p, n) == Tick(TickTimes(p, n - 1));
      IndexAfterIsMod(n - 1);
      IndexAfterIsMod(n);
    }
  }
}
